=== FILE: README.md ===
# Customkeeps checkout, modelled in Dafny

Customkeeps is a storefront for customized printed goods (T-shirts, mugs, tote
bags). This project models its cart-to-payment path and proves properties of
that model:

- the **cart store** of `App.jsx`: catalog lookup, add, remove by id, payment success and logout;
- the **price aggregator and coupon evaluator** of `CartPage.jsx`: the subtotal, the SAVE10 rule and the coupon box;
- the **payment session controller** `CheckoutForm` of `Payment.jsx`: the payment-intent request and card confirmation;
- the backend's **`pay_view`** (`views.py`): the coupon rule, the conversion to centavos and its error responses;
- the **customization form** schema (`CustomizationForm.jsx`);
- the **order list** of `OrderContext.jsx`.

| file | module | form |
|---|---|---|
| `wrappers.dfy` | `Wrappers` | `Option`, `Result` |
| `text.dfy` | `Text` | `trim` and upper-casing, with lemmas |
| `cart.dfy` | `Cart` | catalog, line items, subtotal, add and remove as functions, with lemmas |
| `app.dfy` | `App` | class `Storefront` (cart and session state) |
| `cart_page.dfy` | `CartPage` | discount functions; class `CouponBox` |
| `payment.dfy` | `Payment` | class `CheckoutForm`; the reply handling of `createPaymentIntent` |
| `pay_view.dfy` | `PayView` | `pay_view` as a function |
| `customization_form.dfy` | `CustomizationForm` | the schema as a function |
| `order_context.dfy` | `OrderContext` | class `OrderBook` |
| `checkout.dfy` | `Checkout` | lemmas and two scenarios that compose the modules |

Amounts and quantities are `real`, so arithmetic is exact. A JavaScript value
that is absent or falsy (`null` from `localStorage`, a missing JSON field) is
modelled as `""`. The outside world is passed in as parameters:

- the stored token and e-mail;
- `Date.now()` and today's date;
- each `fetch` reply;
- Stripe's answers.

The two asynchronous handlers of `CheckoutForm` are each split at their
`await`: `StartIntent`/`SettleIntent` and `BeginSubmit`/`FinishSubmit`.
Other handlers can run between the two steps, as they can in the browser.
The asynchronous order fetch is split the same way, into `Mount` and
`SettleFetch`.

## Behaviour as written

The model follows the code, including these consequences of it:

- **The charge is discounted twice.** `CartPage` passes the already-discounted `finalAmount` together with the applied coupon. `pay_view` takes 10% off again. With SAVE10, Stripe is asked for `int(subtotal × 81)` centavos (`Checkout.ChargeDiscountedTwice`, `Checkout.Save10Checkout`).
- **The recorded order total is undiscounted.** It is the plain Σ quantity × price of the cart (`Checkout.OrderTotalIsUndiscounted`).
- **A changed total does not invalidate the old session.** A new intent request keeps the previous `clientSecret`. If that request fails, the Pay button is enabled again with the secret issued for the old amount (`Checkout.StaleSessionAfterFailedRefresh`).
- **Confirmations can overlap.** Only the "processing" status disables the Pay button, and a successful intent request made while a confirmation is pending sets the status back to idle, so a second confirmation can start beside the first (`Checkout.OverlappingConfirmations`).
- **The order records the cart of the render in which Pay was pressed.** A line removed while the payment is confirmed is still in the recorded order (`Checkout.RemovedDuringPaymentIsRecorded`).
- An applied coupon stays applied when a line is removed from the cart on the cart page.

## Model

| member | source | states |
|---|---|---|
| `Cart.Find` | Customkeeps/customkeeps-frontend/src/App.jsx:72-73 | the lookup returns a catalog entry with exactly that name, and returns nothing only when no entry has the name |
| `Cart.AddToCart` | Customkeeps/customkeeps-frontend/src/App.jsx:71-81 | an unknown product leaves the cart unchanged; a known one appends exactly one item at the end and keeps the earlier items |
| `Cart.AddToCartSubtotal` | Customkeeps/customkeeps-frontend/src/App.jsx:72-81 | adding raises the subtotal by exactly quantity × catalog price, and by nothing for an unknown product |
| `Cart.AddToCartPriced` | Customkeeps/customkeeps-frontend/src/App.jsx:72-78 | adding keeps every line's price equal to the catalog price of its product |
| `Cart.Without` | Customkeeps/customkeeps-frontend/src/App.jsx:86-88 | after removal an item is in the cart exactly when it was before and its id differs from the removed one |
| `Cart.WithoutAppend` | Customkeeps/customkeeps-frontend/src/App.jsx:86-88 | removal works segment by segment, so the surviving items keep their order |
| `Cart.WithoutAbsent` | Customkeeps/customkeeps-frontend/src/App.jsx:86-88 | removing an id that no item carries is a no-op |
| `Cart.WithoutIdempotent` | Customkeeps/customkeeps-frontend/src/App.jsx:86-88 | removing the same id twice is the same as removing it once |
| `Cart.WithoutSubtotal` | Customkeeps/customkeeps-frontend/src/App.jsx:86-88 | the subtotal falls by exactly the removed lines' Σ quantity × price |
| `Cart.SubtotalAppend` | Customkeeps/customkeeps-frontend/src/App.jsx:94-97 | the reduce Σ quantity × price splits over concatenation, so the fold order does not matter |
| `Cart.SubtotalNonNegative` | Customkeeps/customkeeps-frontend/src/pages/CartPage.jsx:20-23 | with non-negative quantities and prices the subtotal is non-negative |
| `Text.TrimBlank` | Customkeeps/customkeeps-frontend/src/pages/CartPage.jsx:31 | a code trims to the empty string exactly when every character of it is whitespace |
| `Text.TrimmedEnds` | Customkeeps/customkeeps-frontend/src/pages/CartPage.jsx:37 | a trimmed code neither starts nor ends with whitespace |
| `Text.TrimIgnoresPadding` | Customkeeps/customkeeps-frontend/src/pages/CartPage.jsx:37 | whitespace around a code never changes what it trims to |
| `Text.TrimCore` | Customkeeps/customkeeps-frontend/src/pages/CartPage.jsx:31-37 | the code is its trimmed form with some whitespace before and some after it, so `trim` removes exactly the surrounding whitespace |
| `Text.ToUpperIdempotent` | Customkeeps/customkeeps-frontend/src/pages/CartPage.jsx:26 | upper-casing an already upper-cased code changes nothing, so the stored "SAVE10" still matches |
| `App.Storefront.constructor` | Customkeeps/customkeeps-frontend/src/App.jsx:38-42 | the session starts logged out with an empty cart, payment not complete and no e-mail |
| `App.Storefront.RestoreSession` | Customkeeps/customkeeps-frontend/src/App.jsx:46-51 | at mount, the user is logged in exactly when a token is stored; a stored e-mail replaces the current one |
| `App.Storefront.HandleLogin` | Customkeeps/customkeeps-frontend/src/App.jsx:55-59 | login sets the user as authenticated and takes the stored e-mail if there is one; the cart is untouched |
| `App.Storefront.HandleLogout` | Customkeeps/customkeeps-frontend/src/App.jsx:61-69 | logout empties the cart, clears the payment-complete and authenticated flags, and clears the e-mail |
| `App.Storefront.HandleAddToCart` | Customkeeps/customkeeps-frontend/src/App.jsx:71-84 | the cart becomes `AddToCart` of the old cart; an unknown product changes nothing; the catalog-price invariant is kept |
| `App.Storefront.HandleRemoveFromCart` | Customkeeps/customkeeps-frontend/src/App.jsx:86-88 | the cart becomes `Without` of the old cart; the other state is unchanged |
| `App.Storefront.HandlePaymentSuccess` | Customkeeps/customkeeps-frontend/src/App.jsx:90-103 | exactly one order is appended: status "Preparing", the cart captured by the render in which Pay was pressed, and its undiscounted Σ quantity × price; then the cart is empty and the payment is complete; a pending order fetch stays pending, so it can still replace the list, new order included |
| `CartPage.DiscountRate` | Customkeeps/customkeeps-frontend/src/pages/CartPage.jsx:25-26 | the rate is 10% exactly when the applied code spells SAVE10 in some letter case, and 0 exactly when it does not |
| `CartPage.FinalAmountValue` | Customkeeps/customkeeps-frontend/src/pages/CartPage.jsx:20-28 | an empty cart totals 0; with SAVE10 the final amount is 90% of the subtotal, otherwise it equals the subtotal; no coupon means no discount |
| `CartPage.FinalAmountBounds` | Customkeeps/customkeeps-frontend/src/pages/CartPage.jsx:25-28 | with non-negative prices and quantities, 0 ≤ discount ≤ subtotal and 0 ≤ finalAmount ≤ subtotal |
| `CartPage.Evaluate` | Customkeeps/customkeeps-frontend/src/pages/CartPage.jsx:30-44 | a code is blank exactly when it is all whitespace, and accepted exactly when it is not blank and trims and upper-cases to SAVE10 |
| `CartPage.EvaluateIgnoresPadding` | Customkeeps/customkeeps-frontend/src/pages/CartPage.jsx:31-37 | surrounding whitespace never changes the verdict on a code |
| `CartPage.AcceptedCodes` | Customkeeps/customkeeps-frontend/src/pages/CartPage.jsx:30-44 | a typed code is accepted exactly when it is SAVE10 in some letter case with any whitespace before and after it |
| `Text.Save10Spellings` | Customkeeps/customkeeps-frontend/src/pages/CartPage.jsx:37 | the codes accepted as SAVE10 are exactly its spellings in any letter case |
| `CartPage.CouponBox.constructor` | Customkeeps/customkeeps-frontend/src/pages/CartPage.jsx:14-16 | the coupon box starts with no code, no applied coupon and no message |
| `CartPage.CouponBox.EditCode` | Customkeeps/customkeeps-frontend/src/pages/CartPage.jsx:77 | typing changes only the code, never the applied coupon or the message |
| `CartPage.CouponBox.ApplyCoupon` | Customkeeps/customkeeps-frontend/src/pages/CartPage.jsx:30-44 | blank gives no coupon and "Please enter a code."; accepted gives SAVE10 and "Coupon applied: 10% off."; anything else clears the coupon and gives "Invalid coupon code."; the result depends on the typed code alone, so applying twice equals applying once; only SAVE10 is ever applied, and the success message shows exactly while it is |
| `CartPage.CouponBox.Total` | Customkeeps/customkeeps-frontend/src/pages/CartPage.jsx:25-28 | the total handed to the payment form is the subtotal without a coupon and 90% of it with SAVE10 |
| `Payment.CreatePaymentIntent` | Customkeeps/customkeeps-frontend/src/components/Payment.jsx:18-32 | a network failure rethrows its message; a non-ok reply throws the server's error, or "Payment intent failed" when there is none; an ok reply yields its client secret |
| `Payment.OrDefault` | Customkeeps/customkeeps-frontend/src/components/Payment.jsx:81 | JavaScript's message-or-fallback: a non-empty message is kept, and an empty one yields exactly the fallback |
| `Payment.CheckoutForm.constructor` | Customkeeps/customkeeps-frontend/src/components/Payment.jsx:45-47 | the form starts idle, with no client secret and no error |
| `Payment.CheckoutForm.StartIntent` | Customkeeps/customkeeps-frontend/src/components/Payment.jsx:58-88 | an intent is requested, for totalAmount and the coupon, exactly when the cart is non-empty, the total is positive and a token exists; otherwise nothing changes, or without a token the status is error with "You must be logged in to pay."; the old client secret is kept; exactly the requests sent are counted as pending |
| `Payment.CheckoutForm.SettleIntent` | Customkeeps/customkeeps-frontend/src/components/Payment.jsx:76-82 | success stores the client secret and returns to idle; failure sets error with the thrown message or "Failed to start payment."; only a pending request settles, and it is then no longer pending, so an empty cart or a missing token never yields a client secret |
| `Payment.CheckoutForm.BeginSubmit` | Customkeeps/customkeeps-frontend/src/components/Payment.jsx:90-95 | without stripe, elements or a client secret nothing changes; otherwise the status is processing, which disables the Pay button until the status changes again; exactly the started submissions are counted as confirming |
| `Payment.CheckoutForm.FinishSubmit` | Customkeeps/customkeeps-frontend/src/components/Payment.jsx:113-129 | the success callback is made once, with the intent id, totalAmount and coupon, exactly when the intent status is "succeeded"; an error gives its message or "Payment failed."; any other status gives "Unexpected payment status."; only a started submission is answered, so the callback is made at most once per started submission |
| `PayView.Truncate` | customkeeps_backend/api/views.py:50 | `int(x)` truncates toward zero: it lies within 1 of x, on the side of zero |
| `PayView.DiscountedAmount` | customkeeps_backend/api/views.py:44-48 | a code spelling SAVE10 in any letter case gives 90% of the amount; any other code, or no code, leaves it unchanged |
| `PayView.Pay` | customkeeps_backend/api/views.py:40-74 | Stripe is asked for exactly the truncated centavos, and only when they are positive; the response is 200 with only the client secret exactly when the intent is created; otherwise it is 400 with "Invalid payment amount.", or with the exception's text |
| `PayView.ChargedIffOneCentavo` | customkeeps_backend/api/views.py:50-56 | an intent is created exactly when the discounted amount is at least one centavo |
| `PayView.CentsBound` | customkeeps_backend/api/views.py:50 | for a non-negative amount, the centavos are the discounted amount × 100 rounded down |
| `PayView.MissingAmountRefused` | customkeeps_backend/api/views.py:43-56 | a request with no amount gets 400 "Invalid payment amount." and creates no intent |
| `PayView.CouponCaseInsensitive` | customkeeps_backend/api/views.py:44-48 | any two codes that upper-case alike are charged the same; a code that does not spell SAVE10 is charged the truncated amount × 100 |
| `CustomizationForm.Validate` | Customkeeps/customkeeps-frontend/src/components/CustomizationForm.jsx:15-29 | a submission is produced exactly when a product is chosen, the quantity is a number in 1..100, and the first file is JPEG or PNG; otherwise each failing field carries its message ("Product is required", "Minimum quantity is 1", "Maximum quantity is 100", "Design image is required") |
| `CustomizationForm.ResetFormRefused` | Customkeeps/customkeeps-frontend/src/components/CustomizationForm.jsx:40-47 | after any submit the form holds values the schema refuses, so nothing is forwarded twice; after a forwarded submission every field reports "required" |
| `CustomizationForm.ValidFormFindsProduct` | Customkeeps/customkeeps-frontend/src/components/CustomizationForm.jsx:7-12 | every product the drop-down offers is in the catalog, so a valid form never reaches the unknown-product path |
| `OrderContext.FetchOrders` | Customkeeps/customkeeps-frontend/src/context/OrderContext.jsx:12-17 | a non-ok reply throws "Failed to fetch orders"; the result is the parsed list exactly when the reply is ok and parses |
| `OrderContext.OrderBook.constructor` | Customkeeps/customkeeps-frontend/src/context/OrderContext.jsx:21 | the order list starts empty |
| `OrderContext.OrderBook.Mount` | Customkeeps/customkeeps-frontend/src/context/OrderContext.jsx:23-27 | a fetch is in flight after mount exactly when a token is stored, and mounting leaves the list as it was; since only an in-flight fetch can settle, the list is replaced by server data only after a mount with a token |
| `OrderContext.OrderBook.SettleFetch` | Customkeeps/customkeeps-frontend/src/context/OrderContext.jsx:28-35 | only a fetch started at mount settles, and then no fetch is in flight; a successful one replaces the list wholesale with the server data, a failed one leaves it unchanged |
| `OrderContext.OrderBook.AddOrder` | Customkeeps/customkeeps-frontend/src/context/OrderContext.jsx:38-40 | exactly one order is appended at the end and the earlier ones are unchanged |
| `Checkout.ChargeDiscountedTwice` | customkeeps_backend/api/views.py:44-50 | with SAVE10, the cart page's discounted total is discounted again by the server, so Stripe is asked for int(subtotal × 81) centavos |
| `Checkout.ChargeWithoutCoupon` | Customkeeps/customkeeps-frontend/src/components/Payment.jsx:25 | without a coupon Stripe is asked for int(subtotal × 100) centavos |
| `Checkout.TotalFromCartPage` | Customkeeps/customkeeps-frontend/src/components/Payment.jsx:49-55 | the total the payment form uses is the subtotal without a coupon and 90% of it with SAVE10 in any letter case |
| `Checkout.ServerAnswerReachesForm` | Customkeeps/customkeeps-frontend/src/components/Payment.jsx:27-31 | a 200 from the server gives the form the created client secret; a refusal gives it the server's error message |
| `Checkout.OrderTotalIsUndiscounted` | Customkeeps/customkeeps-frontend/src/App.jsx:94-97 | with SAVE10 and a positive subtotal, the recorded total is more than the amount reported by the form, which is more than the amount charged |
| `Checkout.FormSubmissionLandsInCart` | Customkeeps/customkeeps-frontend/src/components/CustomizationForm.jsx:40-47 | a valid submission from the drop-down appends one line with the catalog price and a quantity in 1..100 |
| `Checkout.Save10Checkout` | Customkeeps/customkeeps-frontend/src/pages/CartPage.jsx:128-136 | buying two T-shirts with " save10 " typed records one order of 1000 and empties the cart; the form reports 900 and Stripe is asked for 81000 centavos |
| `Checkout.StaleSessionAfterFailedRefresh` | Customkeeps/customkeeps-frontend/src/components/Payment.jsx:58-88 | after the total changes and the new intent request fails, the old client secret is still held and the Pay button is enabled |
| `Checkout.OverlappingConfirmations` | Customkeeps/customkeeps-frontend/src/components/Payment.jsx:58-95 | a confirmation starts, a refreshed intent succeeds meanwhile, the Pay button is enabled again and a second confirmation starts |
| `Checkout.RemovedDuringPaymentIsRecorded` | Customkeeps/customkeeps-frontend/src/App.jsx:86-103 | a line removed after Pay was pressed is still recorded in the order, while the cart at success is empty |

## Left out

- Floating point: amounts are exact `real`s. Rounding in JavaScript's `× 0.1` and in Python's `float(...)` and `× 0.9` is not modelled. Neither are NaN or infinite amounts, which make `int(...)` raise.
- Parsing: `float` of a numeric string is taken as already done (`PayView.AmountField.Number`).
- Non-string coupon values: `str(...)` of such a value is not modelled.
- Upper-casing changes only ASCII letters. Both runtimes also map some other characters (for example U+017F to `S`); that mapping is not modelled.
- `localStorage`: the token and e-mail are parameters. Logout's removal of them is not modelled.
- `Date.now()` ids and today's date are parameters. The source does not keep ids unique, and the model does not assume they are.
- `setTimeout` clearing of the "Item added to cart!" message, and all navigation, are not modelled.
- The coupon box and the payment form hold state local to the cart page. Leaving the page (for example to add an item, which only the home page offers) unmounts them and resets that state. `CartPage.CouponBox` and `Payment.CheckoutForm` model one stay on the page, and their state is not reset by a change made elsewhere.
- When the effect runs: React re-runs it when the cart, the total or the coupon changes. Here the caller invokes `StartIntent` at each such change, and replies settle in whatever order the caller chooses.
- The card details and billing e-mail sent to `confirmCardPayment` are not modelled.
- The "Stripe is not configured" and "Your cart is empty." renderings of `Payment.jsx` are not modelled.
- Orders fetched from the server are taken to be already in the client's `Order` shape.
- The server's authentication check is not modelled; a refused request is just a non-ok reply.
- CustomizationForm.Validate: for a quantity that is not a number, the message is shortened to its fixed prefix, because yup's full message quotes the original input.
- The uploaded design: the form forwards it but `handleAddToCart` drops it. The form never supplies `customizationText`, so the added line carries `None` there.

=== FILE: app.dfy ===
/** The session and cart state of App.jsx (`AppInner`): the cart, the
    payment-complete flag, the login flag and e-mail, and the handlers that
    update them. `localStorage` values, `Date.now()` and today's date are
    parameters; an absent stored value is "". Navigation is not modelled. */
module App {
  import opened Wrappers
  import opened Cart
  import opened Payment
  import opened OrderContext

  const Preparing := "Preparing"
  const ItemAdded := "Item added to cart!"

  /** The order `handlePaymentSuccess` records: the cart as it is, at its undiscounted total. */
  function NewOrder(cart: seq<LineItem>, details: PaymentDetails, orderId: int, date: string): (o: Order)
    ensures o.status == Preparing && o.items == cart && o.details == details && o.orderId == orderId
    ensures o.total == Subtotal(cart)
  {
    Order(orderId, Preparing, Subtotal(cart), date, details, cart)
  }

  class Storefront {
    var cartItems: seq<LineItem>
    var paymentComplete: bool
    var isAuthenticated: bool
    var currentUserEmail: string
    var addToCartMessage: string
    const orderBook: OrderBook

    /** Every line in the cart carries its product's catalog price. */
    ghost predicate Valid()
      reads this
    {
      CatalogPriced(cartItems)
    }

    constructor (orderBook: OrderBook)
      ensures Valid()
      ensures cartItems == [] && !paymentComplete && !isAuthenticated
      ensures currentUserEmail == "" && addToCartMessage == ""
      ensures this.orderBook == orderBook
    {
      cartItems, paymentComplete, isAuthenticated := [], false, false;
      currentUserEmail, addToCartMessage := "", "";
      this.orderBook := orderBook;
    }

    /** The mount effect: logged in exactly when a token is stored. */
    method RestoreSession(token: string, email: string)
      requires Valid()
      modifies this
      ensures Valid()
      ensures isAuthenticated <==> token != ""
      ensures currentUserEmail == if email != "" then email else old(currentUserEmail)
      ensures cartItems == old(cartItems) && paymentComplete == old(paymentComplete)
      ensures addToCartMessage == old(addToCartMessage)
    {
      isAuthenticated := token != "";
      if email != "" {
        currentUserEmail := email;
      }
    }

    /** `handleLogin`, with the e-mail the login form stored. */
    method HandleLogin(email: string)
      requires Valid()
      modifies this
      ensures Valid()
      ensures isAuthenticated
      ensures currentUserEmail == if email != "" then email else old(currentUserEmail)
      ensures cartItems == old(cartItems) && paymentComplete == old(paymentComplete)
      ensures addToCartMessage == old(addToCartMessage)
    {
      isAuthenticated := true;
      if email != "" {
        currentUserEmail := email;
      }
    }

    /** `handleLogout`: the whole session is reset. */
    method HandleLogout()
      requires Valid()
      modifies this
      ensures Valid()
      ensures !isAuthenticated && !paymentComplete && cartItems == [] && currentUserEmail == ""
      ensures addToCartMessage == old(addToCartMessage)
    {
      isAuthenticated := false;
      paymentComplete := false;
      cartItems := [];
      currentUserEmail := "";
    }

    /** `handleAddToCart`, at time `now`. */
    method HandleAddToCart(data: AddRequest, now: int)
      requires Valid()
      modifies this
      ensures Valid()
      ensures cartItems == AddToCart(old(cartItems), data, now)
      ensures FindProduct(data.productName).None? ==> unchanged(this)
      ensures FindProduct(data.productName).Some? ==> addToCartMessage == ItemAdded
      ensures paymentComplete == old(paymentComplete) && isAuthenticated == old(isAuthenticated)
      ensures currentUserEmail == old(currentUserEmail)
    {
      var product := FindProduct(data.productName);
      if product.None? {
        return;
      }
      var newItem := LineItem(now, data.productName, product.value.price, data.quantity, data.customizationText);
      AddToCartPriced(cartItems, data, now);
      cartItems := cartItems + [newItem];
      addToCartMessage := ItemAdded;
    }

    /** `handleRemoveFromCart` */
    method HandleRemoveFromCart(id: int)
      requires Valid()
      modifies this
      ensures Valid()
      ensures cartItems == Without(old(cartItems), id)
      ensures paymentComplete == old(paymentComplete) && isAuthenticated == old(isAuthenticated)
      ensures currentUserEmail == old(currentUserEmail) && addToCartMessage == old(addToCartMessage)
    {
      cartItems := Without(cartItems, id);
    }

    /** `handlePaymentSuccess`, as passed to the payment form by the render in which Pay
        was pressed: `renderedCart` is that render's `cartItems`, which the order records
        even if the cart changed while the payment was confirmed. The cart then empties. */
    method HandlePaymentSuccess(renderedCart: seq<LineItem>, details: PaymentDetails, orderId: int, date: string)
      requires Valid()
      modifies this, orderBook
      ensures Valid()
      ensures orderBook.orders == old(orderBook.orders) + [NewOrder(renderedCart, details, orderId, date)]
      ensures orderBook.fetchPending == old(orderBook.fetchPending)
      ensures cartItems == [] && paymentComplete
      ensures isAuthenticated == old(isAuthenticated) && currentUserEmail == old(currentUserEmail)
      ensures addToCartMessage == old(addToCartMessage)
    {
      orderBook.AddOrder(NewOrder(renderedCart, details, orderId, date));
      paymentComplete := true;
      cartItems := [];
    }
  }
}

=== FILE: cart.dfy ===
/** The product catalog and the cart's line items, as values: the fixed
    `products` list of App.jsx, the item `handleAddToCart` builds, the filter
    `handleRemoveFromCart` applies, and the Σ quantity × price that App.jsx,
    CartPage.jsx and Payment.jsx each compute with the same `reduce`. */
module Cart {
  import opened Wrappers

  /** A catalog entry (its description and image are display only). */
  datatype Product = Product(id: int, name: string, price: real)

  const Products: seq<Product> := [
    Product(1, "Custom T-Shirt", 500.0),
    Product(2, "Personalized Mug", 300.0),
    Product(3, "Custom Tote Bag", 400.0)
  ]

  /** One line of the cart; `id` is the `Date.now()` of the add. */
  datatype LineItem = LineItem(
    id: int,
    productName: string,
    price: real,
    quantity: real,
    customizationText: Option<string>)

  /** What `handleAddToCart` reads from the submitted form data. */
  datatype AddRequest = AddRequest(productName: string, quantity: real, customizationText: Option<string>)

  /** `products.find((p) => p.name === name)`: the first entry with that name. */
  function Find(products: seq<Product>, name: string): (r: Option<Product>)
    ensures r.Some? ==> r.value in products && r.value.name == name
    ensures r.None? <==> forall p :: p in products ==> p.name != name
  {
    if products == [] then None
    else if products[0].name == name then Some(products[0])
    else Find(products[1..], name)
  }

  function FindProduct(name: string): Option<Product> {
    Find(Products, name)
  }

  /** The reduce `(sum, item) => sum + item.quantity * item.price` from 0, left to right. */
  function Subtotal(items: seq<LineItem>): real {
    if items == [] then 0.0
    else Subtotal(items[..|items| - 1]) + items[|items| - 1].quantity * items[|items| - 1].price
  }

  predicate NonNegative(items: seq<LineItem>) {
    forall x :: x in items ==> x.quantity >= 0.0 && x.price >= 0.0
  }

  /** An item whose price is the catalog price of its product name. */
  predicate PricedFromCatalog(x: LineItem) {
    FindProduct(x.productName).Some? && FindProduct(x.productName).value.price == x.price
  }

  predicate CatalogPriced(items: seq<LineItem>) {
    forall x :: x in items ==> PricedFromCatalog(x)
  }

  /** The item `handleAddToCart` appends, or None when the name is not in the catalog. */
  function NewItem(request: AddRequest, id: int): (r: Option<LineItem>)
    ensures r.None? <==> FindProduct(request.productName).None?
    ensures r.Some? ==> r.value.id == id && r.value.productName == request.productName
    ensures r.Some? ==> r.value.price == FindProduct(request.productName).value.price
    ensures r.Some? ==> r.value.quantity == request.quantity
    ensures r.Some? ==> r.value.customizationText == request.customizationText
  {
    match FindProduct(request.productName)
    case None => None
    case Some(product) =>
      Some(LineItem(id, request.productName, product.price, request.quantity, request.customizationText))
  }

  /** The cart after `handleAddToCart(request)` at time `id`. */
  function AddToCart(items: seq<LineItem>, request: AddRequest, id: int): (r: seq<LineItem>)
    ensures FindProduct(request.productName).None? ==> r == items
    ensures FindProduct(request.productName).Some? ==>
              |r| == |items| + 1 && r[..|items|] == items && r[|items|] == NewItem(request, id).value
  {
    match NewItem(request, id)
    case None => items
    case Some(item) => items + [item]
  }

  /** `items.filter((item) => item.id !== id)` */
  function Without(items: seq<LineItem>, id: int): (r: seq<LineItem>)
    ensures forall x :: x in r <==> x in items && x.id != id
    ensures |r| <= |items|
  {
    if items == [] then []
    else if items[0].id == id then Without(items[1..], id)
    else [items[0]] + Without(items[1..], id)
  }

  /** Σ quantity × price splits over concatenation, so the fold order does not matter. */
  lemma {:induction false} SubtotalAppend(a: seq<LineItem>, b: seq<LineItem>)
    ensures Subtotal(a + b) == Subtotal(a) + Subtotal(b)
    decreases |b|
  {
    if b == [] {
      assert a + b == a;
    } else {
      var b' := b[..|b| - 1];
      assert (a + b)[..|a + b| - 1] == a + b';
      SubtotalAppend(a, b');
    }
  }

  /** With non-negative quantities and prices the subtotal is non-negative. */
  lemma {:induction false} SubtotalNonNegative(items: seq<LineItem>)
    requires NonNegative(items)
    ensures Subtotal(items) >= 0.0
    decreases |items|
  {
    if items != [] {
      var front := items[..|items| - 1];
      assert NonNegative(front) by {
        forall x | x in front ensures x.quantity >= 0.0 && x.price >= 0.0 {
          var i :| 0 <= i < |front| && front[i] == x;
          assert items[i] == x;
        }
      }
      SubtotalNonNegative(front);
      var last := items[|items| - 1];
      assert last in items;
      assert last.quantity * last.price >= 0.0;
    }
  }

  /** Adding raises the subtotal by exactly the new line's quantity × catalog price. */
  lemma AddToCartSubtotal(items: seq<LineItem>, request: AddRequest, id: int)
    ensures Subtotal(AddToCart(items, request, id)) ==
            Subtotal(items) + (match FindProduct(request.productName)
                               case Some(p) => request.quantity * p.price
                               case None => 0.0)
  {
    var r := AddToCart(items, request, id);
    if FindProduct(request.productName).Some? {
      assert r[..|r| - 1] == items;
    }
  }

  /** Adding keeps every price in the cart a catalog price. */
  lemma AddToCartPriced(items: seq<LineItem>, request: AddRequest, id: int)
    requires CatalogPriced(items)
    ensures CatalogPriced(AddToCart(items, request, id))
  {
    var r := AddToCart(items, request, id);
    if FindProduct(request.productName).Some? {
      forall x | x in r ensures PricedFromCatalog(x) {
        var i :| 0 <= i < |r| && r[i] == x;
        if i < |items| { assert x == items[i]; assert x in items; }
      }
    }
  }

  /** Removal keeps the surviving items in their original order. */
  lemma {:induction false} WithoutAppend(a: seq<LineItem>, b: seq<LineItem>, id: int)
    ensures Without(a + b, id) == Without(a, id) + Without(b, id)
    decreases |a|
  {
    if a == [] {
      assert a + b == b;
    } else {
      assert (a + b)[0] == a[0];
      assert (a + b)[1..] == a[1..] + b;
      WithoutAppend(a[1..], b, id);
    }
  }

  /** Removing an id no item carries leaves the cart as it was. */
  lemma {:induction false} WithoutAbsent(items: seq<LineItem>, id: int)
    requires forall x :: x in items ==> x.id != id
    ensures Without(items, id) == items
    decreases |items|
  {
    if items != [] {
      assert items[0] in items;
      assert forall x :: x in items[1..] ==> x in items;
      WithoutAbsent(items[1..], id);
      assert [items[0]] + items[1..] == items;
    }
  }

  /** Removing the same id twice is removing it once. */
  lemma WithoutIdempotent(items: seq<LineItem>, id: int)
    ensures Without(Without(items, id), id) == Without(items, id)
  {
    WithoutAbsent(Without(items, id), id);
  }

  /** The subtotal drops by the removed lines and nothing else. */
  lemma {:induction false} WithoutSubtotal(items: seq<LineItem>, id: int)
    ensures Subtotal(items) == Subtotal(Without(items, id)) + Subtotal(Only(items, id))
    decreases |items|
  {
    if items != [] {
      var head, rest := items[0], items[1..];
      SubtotalCons(head, rest);
      assert items == [head] + rest;
      WithoutSubtotal(rest, id);
      if head.id == id {
        assert Only(items, id) == [head] + Only(rest, id);
        SubtotalCons(head, Only(rest, id));
      } else {
        assert Without(items, id) == [head] + Without(rest, id);
        SubtotalCons(head, Without(rest, id));
      }
    }
  }

  lemma SubtotalCons(head: LineItem, rest: seq<LineItem>)
    ensures Subtotal([head] + rest) == head.quantity * head.price + Subtotal(rest)
  {
    SubtotalAppend([head], rest);
    assert [head][..0] == [];
  }

  /** The lines `handleRemoveFromCart(id)` drops. */
  function Only(items: seq<LineItem>, id: int): (r: seq<LineItem>)
    ensures forall x :: x in r <==> x in items && x.id == id
  {
    if items == [] then []
    else if items[0].id == id then [items[0]] + Only(items[1..], id)
    else Only(items[1..], id)
  }
}

=== FILE: cart_page.dfy ===
/** The price aggregator and coupon evaluator of CartPage.jsx: the subtotal,
    the flat 10% rule for SAVE10, the total handed to the payment form, and the
    coupon box whose Apply button updates `appliedCoupon` and `couponMessage`. */
module CartPage {
  import opened Text
  import opened Cart

  const Save10 := "SAVE10"
  const EnterCode := "Please enter a code."
  const CouponApplied := "Coupon applied: 10% off."
  const InvalidCoupon := "Invalid coupon code."

  /** `discountRate`: 10% for SAVE10 written in any letter case, nothing for any other code. */
  function DiscountRate(appliedCoupon: string): (r: real)
    ensures r == 1.0 / 10.0 <==> SpellsSave10(appliedCoupon)
    ensures r == 0.0 <==> !SpellsSave10(appliedCoupon)
  {
    Save10Spellings(appliedCoupon);
    if ToUpper(appliedCoupon) == Save10 then 0.1 else 0.0
  }

  /** `discountAmount` */
  function DiscountAmount(items: seq<LineItem>, appliedCoupon: string): real {
    Subtotal(items) * DiscountRate(appliedCoupon)
  }

  /** `finalAmount`, the amount passed to the payment form. */
  function FinalAmount(items: seq<LineItem>, appliedCoupon: string): real {
    Subtotal(items) - DiscountAmount(items, appliedCoupon)
  }

  /** The subtotal of an empty cart is 0, and SAVE10 takes off 10% of any subtotal. */
  lemma FinalAmountValue(items: seq<LineItem>, appliedCoupon: string)
    ensures items == [] ==> FinalAmount(items, appliedCoupon) == 0.0
    ensures ToUpper(appliedCoupon) == Save10 ==>
              FinalAmount(items, appliedCoupon) == Subtotal(items) * 9.0 / 10.0
    ensures ToUpper(appliedCoupon) != Save10 ==> FinalAmount(items, appliedCoupon) == Subtotal(items)
    ensures appliedCoupon == "" ==> DiscountAmount(items, appliedCoupon) == 0.0
  {
  }

  /** With non-negative prices and quantities, 0 <= finalAmount <= subtotal. */
  lemma FinalAmountBounds(items: seq<LineItem>, appliedCoupon: string)
    requires NonNegative(items)
    ensures 0.0 <= DiscountAmount(items, appliedCoupon) <= Subtotal(items)
    ensures 0.0 <= FinalAmount(items, appliedCoupon) <= Subtotal(items)
  {
    SubtotalNonNegative(items);
  }

  /** The three answers of `handleApplyCoupon`. */
  datatype Verdict = Blank | Accepted | Rejected

  /** How `handleApplyCoupon` classifies the typed code. */
  function Evaluate(couponCode: string): (v: Verdict)
    ensures v == Blank <==> AllWhitespace(couponCode)
    ensures v == Accepted <==> !AllWhitespace(couponCode) && ToUpper(Trim(couponCode)) == Save10
  {
    TrimBlank(couponCode);
    if Trim(couponCode) == "" then Blank
    else if ToUpper(Trim(couponCode)) == Save10 then Accepted
    else Rejected
  }

  /** Surrounding whitespace never changes the verdict. */
  lemma EvaluateIgnoresPadding(w1: string, couponCode: string, w2: string)
    requires AllWhitespace(w1) && AllWhitespace(w2)
    ensures Evaluate(w1 + couponCode + w2) == Evaluate(couponCode)
  {
    TrimIgnoresPadding(w1, couponCode, w2);
  }

  /** The codes accepted are exactly the spellings of SAVE10 in any letter case,
      with any whitespace before and after. */
  lemma AcceptedCodes(couponCode: string)
    ensures Evaluate(couponCode) == Accepted <==>
              exists w1, core, w2 :: AllWhitespace(w1) && AllWhitespace(w2) && SpellsSave10(core)
                                     && couponCode == w1 + core + w2
  {
    if Evaluate(couponCode) == Accepted {
      var w1, w2 := TrimCore(couponCode);
      Save10Spellings(Trim(couponCode));
      assert AllWhitespace(w1) && AllWhitespace(w2) && SpellsSave10(Trim(couponCode))
             && couponCode == w1 + Trim(couponCode) + w2;
    }
    if exists w1, core, w2 :: AllWhitespace(w1) && AllWhitespace(w2) && SpellsSave10(core)
                              && couponCode == w1 + core + w2 {
      var w1, core, w2 :| AllWhitespace(w1) && AllWhitespace(w2) && SpellsSave10(core)
                          && couponCode == w1 + core + w2;
      EvaluateIgnoresPadding(w1, core, w2);
      assert TrimStart(core) == core;
      assert TrimEnd(core) == core;
      Save10Spellings(core);
      assert !IsWhitespace(core[0]);
    }
  }

  /** The coupon box's state. */
  class CouponBox {
    var couponCode: string
    var appliedCoupon: string
    var couponMessage: string

    /** Only SAVE10 is ever applied, and the success message is shown exactly while it is. */
    ghost predicate Valid()
      reads this
    {
      && (appliedCoupon == "" || appliedCoupon == Save10)
      && (appliedCoupon == Save10 <==> couponMessage == CouponApplied)
    }

    constructor ()
      ensures Valid()
      ensures couponCode == "" && appliedCoupon == "" && couponMessage == ""
    {
      couponCode, appliedCoupon, couponMessage := "", "", "";
    }

    /** The input's `onChange`. */
    method EditCode(text: string)
      requires Valid()
      modifies this
      ensures Valid()
      ensures couponCode == text
      ensures appliedCoupon == old(appliedCoupon) && couponMessage == old(couponMessage)
    {
      couponCode := text;
    }

    /** `handleApplyCoupon`. The new coupon and message depend on the typed code
        alone, so applying the same input twice is the same as applying it once. */
    method ApplyCoupon()
      requires Valid()
      modifies this
      ensures Valid()
      ensures couponCode == old(couponCode)
      ensures Evaluate(couponCode) == Blank ==> appliedCoupon == "" && couponMessage == EnterCode
      ensures Evaluate(couponCode) == Accepted ==> appliedCoupon == Save10 && couponMessage == CouponApplied
      ensures Evaluate(couponCode) == Rejected ==> appliedCoupon == "" && couponMessage == InvalidCoupon
    {
      var trimmed := Trim(couponCode);
      TrimBlank(couponCode);
      if trimmed == "" {
        appliedCoupon := "";
        couponMessage := EnterCode;
        return;
      }
      if ToUpper(trimmed) == Save10 {
        appliedCoupon := Save10;
        couponMessage := CouponApplied;
      } else {
        appliedCoupon := "";
        couponMessage := InvalidCoupon;
      }
    }

    /** `finalAmount` for the current cart and applied coupon. */
    function Total(items: seq<LineItem>): (r: real)
      reads this
      requires Valid()
      ensures appliedCoupon == "" ==> r == Subtotal(items)
      ensures appliedCoupon == Save10 ==> r == Subtotal(items) * 9.0 / 10.0
    {
      FinalAmount(items, appliedCoupon)
    }
  }
}

=== FILE: checkout.dfy ===
/** The checkout pipeline end to end: the cart page's total goes to the
    payment form, the form posts it with the applied coupon to `pay_view`,
    and a confirmed payment is recorded by the storefront as an order. The
    lemmas here compose the modules and state what the composition does. */
module Checkout {
  import opened Wrappers
  import opened Text
  import opened Cart
  import opened CartPage
  import opened Payment
  import opened PayView
  import opened OrderContext
  import opened App
  import opened CustomizationForm

  /** The JSON body the payment form posts, as the server reads it. */
  function ToServer(request: IntentRequest): PayRequest {
    PayRequest(Number(request.amount), request.couponCode)
  }

  /** The server's response, as the payment form's `fetch` sees it. */
  function ToClient(response: Response): IntentReply {
    match response.body
    case SecretBody(secret) => Answered(response.status, Json("", secret))
    case ErrorBody(error) => Answered(response.status, Json(error, ""))
  }

  /** The centavos Stripe is asked for when the cart page's total and applied coupon
      travel through the payment form to the server. */
  function ChargedCents(items: seq<LineItem>, appliedCoupon: string): int {
    var request := IntentRequest(TotalAmount(Some(FinalAmount(items, appliedCoupon)), items), appliedCoupon);
    AmountCents(ToServer(request).amount.value, ToServer(request).couponCode)
  }

  /** With SAVE10 applied the discount is taken twice, once by the cart page and
      once by the server: Stripe is asked for 81% of the subtotal. */
  lemma ChargeDiscountedTwice(items: seq<LineItem>)
    ensures ChargedCents(items, CartPage.Save10) == Truncate(Subtotal(items) * 81.0)
  {
    var s := Subtotal(items);
    FinalAmountValue(items, CartPage.Save10);
    assert ToUpper(CartPage.Save10) == PayView.Save10;
    assert DiscountedAmount(s * 9.0 / 10.0, CartPage.Save10) * 100.0 == s * 81.0;
  }

  /** Without a coupon the subtotal is charged in full. */
  lemma ChargeWithoutCoupon(items: seq<LineItem>)
    ensures ChargedCents(items, "") == Truncate(Subtotal(items) * 100.0)
  {
    FinalAmountValue(items, "");
  }

  /** The total the cart page hands to the payment form is what the form charges:
      the subtotal without a coupon, 90% of it with SAVE10 in any letter case. */
  lemma TotalFromCartPage(items: seq<LineItem>, appliedCoupon: string)
    ensures var total := TotalAmount(Some(FinalAmount(items, appliedCoupon)), items);
            (SpellsSave10(appliedCoupon) ==> total == Subtotal(items) * 9.0 / 10.0)
            && (!SpellsSave10(appliedCoupon) ==> total == Subtotal(items))
  {
    Save10Spellings(appliedCoupon);
    FinalAmountValue(items, appliedCoupon);
  }

  /** The server's answer reaches the payment form intact: a created intent's secret
      is stored, and a refusal shows the server's error message. */
  lemma ServerAnswerReachesForm(request: IntentRequest, stripe: StripeResult)
    ensures var o := Pay(ToServer(request), stripe);
            o.response.status == HTTP_200_OK ==> CreatePaymentIntent(ToClient(o.response)) == Ok(stripe.clientSecret)
    ensures var o := Pay(ToServer(request), stripe);
            o.response.status != HTTP_200_OK ==>
              CreatePaymentIntent(ToClient(o.response)) == Err(OrDefault(o.response.body.error, IntentFailed))
  {
    var o := Pay(ToServer(request), stripe);
    if o.response.status != HTTP_200_OK {
      assert o.response.body.ErrorBody?;
    }
  }

  /** The order records the undiscounted subtotal: with SAVE10 applied and a positive
      subtotal it is more than the amount the payment form reports, which is more
      than what the server charges. */
  lemma OrderTotalIsUndiscounted(items: seq<LineItem>, paymentIntentId: string, orderId: int, date: string)
    requires Subtotal(items) > 0.0
    ensures var details := PaymentDetails(paymentIntentId, FinalAmount(items, CartPage.Save10), CartPage.Save10);
            var order := NewOrder(items, details, orderId, date);
            order.total == Subtotal(items)
            && order.total > details.amount
            && details.amount > ChargedCents(items, CartPage.Save10) as real / 100.0
  {
    FinalAmountValue(items, CartPage.Save10);
    ChargeDiscountedTwice(items);
    var s := Subtotal(items);
    assert Truncate(s * 81.0) as real <= s * 81.0;
  }

  /** A valid form whose product came from the drop-down always adds one line, priced
      from the catalog, with a quantity between 1 and 100. */
  lemma FormSubmissionLandsInCart(values: FormValues, items: seq<LineItem>, id: int)
    requires values.productName in ProductOptions
    requires Validate(values).Ok?
    ensures var request := ToAddRequest(Validate(values).value);
            var cart := AddToCart(items, request, id);
            |cart| == |items| + 1 && cart[..|items|] == items
            && cart[|items|].price == FindProduct(values.productName).value.price
            && 1.0 <= cart[|items|].quantity <= 100.0
  {
    ValidFormFindsProduct(values);
  }

  /** Two T-shirts bought with SAVE10: the order list gains one order of 1000 pesos and
      the cart empties, while the form reports 900 and Stripe is asked for 81000 centavos. */
  method Save10Checkout(now: int, paymentIntentId: string, secret: string, token: string)
    returns (orders: seq<Order>, cart: seq<LineItem>, charged: Option<int>, reported: real)
    requires secret != "" && token != ""
    ensures cart == []
    ensures |orders| == 1 && orders[0].total == 1000.0 && orders[0].status == Preparing
    ensures reported == 900.0
    ensures charged == Some(81000)
  {
    var book := new OrderBook();
    var app := new Storefront(book);
    app.HandleAddToCart(AddRequest("Custom T-Shirt", 2.0, None), now);
    var items := app.cartItems;
    TwoShirts(now);

    var coupon := new CouponBox();
    coupon.EditCode(" save10 ");
    PaddedSave10Accepted();
    coupon.ApplyCoupon();

    var form := new CheckoutForm();
    var total := coupon.Total(items);
    var request := form.StartIntent(items, Some(total), coupon.appliedCoupon, token);
    var outcome := Pay(ToServer(request.value), Created(secret));
    charged := outcome.charged;
    form.SettleIntent(ToClient(outcome.response));
    var started := form.BeginSubmit(true, true);
    var callback := form.FinishSubmit(ConfirmResult(None, Some(PaymentIntent(paymentIntentId, "succeeded"))),
                                      TotalAmount(Some(total), items), coupon.appliedCoupon, true);
    reported := callback.value.amount;
    app.HandlePaymentSuccess(items, callback.value, now + 1, "2026-01-01");
    orders := book.orders;
    cart := app.cartItems;
  }

  /** Two T-shirts at the catalog price: one line, a subtotal of 1000, and 81000 centavos with SAVE10. */
  lemma TwoShirts(now: int)
    ensures var items := AddToCart([], AddRequest("Custom T-Shirt", 2.0, None), now);
            items == [LineItem(now, "Custom T-Shirt", 500.0, 2.0, None)]
            && Subtotal(items) == 1000.0
            && FinalAmount(items, CartPage.Save10) == 900.0
            && ChargedCents(items, CartPage.Save10) == 81000
  {
    assert FindProduct("Custom T-Shirt") == Some(Products[0]);
    var items := [LineItem(now, "Custom T-Shirt", 500.0, 2.0, None)];
    assert Subtotal(items) == 1000.0 by { assert items[..0] == []; }
    FinalAmountValue(items, CartPage.Save10);
    ChargeDiscountedTwice(items);
  }

  /** A typed " save10 " is accepted. */
  lemma PaddedSave10Accepted()
    ensures Evaluate(" save10 ") == Accepted
  {
    TrimIgnoresPadding(" ", "save10", " ");
    assert " " + "save10" + " " == " save10 ";
    assert Trim("save10") == "save10";
  }

  /** When a coupon changes the total and the new intent request fails, the previous
      session's secret stays and the Pay button is enabled again: a confirmation now
      authorizes the session created for the old amount. */
  method StaleSessionAfterFailedRefresh(items: seq<LineItem>, secret: string, token: string, failure: IntentReply)
    returns (enabled: bool, heldSecret: string, oldTotal: real, newTotal: real)
    requires secret != "" && token != "" && items != [] && Subtotal(items) > 0.0
    requires CreatePaymentIntent(failure).Err?
    ensures enabled && heldSecret == secret && oldTotal != newTotal
  {
    FinalAmountValue(items, "");
    FinalAmountValue(items, CartPage.Save10);
    var form := new CheckoutForm();
    oldTotal := FinalAmount(items, "");
    var first := form.StartIntent(items, Some(oldTotal), "", token);
    form.SettleIntent(Answered(200, Json("", secret)));
    newTotal := FinalAmount(items, CartPage.Save10);
    var second := form.StartIntent(items, Some(newTotal), CartPage.Save10, token);
    form.SettleIntent(failure);
    enabled := form.SubmitEnabled(true);
    heldSecret := form.clientSecret;
  }

  /** While a confirmation awaits Stripe, a change of cart or coupon re-runs the intent
      effect; when that request succeeds the status returns to idle, the Pay button is
      enabled again, and a second confirmation starts beside the first. */
  method OverlappingConfirmations(items: seq<LineItem>, secret: string, newSecret: string, token: string)
    returns (firstStarted: bool, enabledMeanwhile: bool, secondStarted: bool)
    requires secret != "" && newSecret != "" && token != "" && items != [] && Subtotal(items) > 0.0
    ensures firstStarted && enabledMeanwhile && secondStarted
  {
    FinalAmountValue(items, "");
    FinalAmountValue(items, CartPage.Save10);
    var form := new CheckoutForm();
    var first := form.StartIntent(items, Some(FinalAmount(items, "")), "", token);
    form.SettleIntent(Answered(200, Json("", secret)));
    firstStarted := form.BeginSubmit(true, true);
    var refresh := form.StartIntent(items, Some(FinalAmount(items, CartPage.Save10)), CartPage.Save10, token);
    form.SettleIntent(Answered(200, Json("", newSecret)));
    enabledMeanwhile := form.SubmitEnabled(true);
    secondStarted := form.BeginSubmit(true, true);
  }

  /** A line removed while the payment is being confirmed is still recorded in the order:
      the success handler records the cart of the render in which Pay was pressed. */
  method RemovedDuringPaymentIsRecorded(now: int, paymentIntentId: string)
    returns (recorded: seq<LineItem>, cartAtSuccess: seq<LineItem>)
    ensures |recorded| == 1 && recorded[0].id == now
    ensures cartAtSuccess == []
  {
    var book := new OrderBook();
    var app := new Storefront(book);
    app.HandleAddToCart(AddRequest("Personalized Mug", 1.0, None), now);
    assert FindProduct("Personalized Mug") == Some(Products[1]);
    var rendered := app.cartItems;
    app.HandleRemoveFromCart(now);
    cartAtSuccess := app.cartItems;
    assert cartAtSuccess == [] by { WithoutRemovesAll(rendered, now); }
    var details := PaymentDetails(paymentIntentId, Subtotal(rendered), "");
    app.HandlePaymentSuccess(rendered, details, now + 1, "2026-01-01");
    recorded := book.orders[0].items;
  }

  lemma WithoutRemovesAll(items: seq<LineItem>, id: int)
    requires forall x :: x in items ==> x.id == id
    ensures Without(items, id) == []
  {
    if Without(items, id) != [] {
      assert Without(items, id)[0] in Without(items, id);
    }
  }
}

=== FILE: customization_form.dfy ===
/** The product customization form of CustomizationForm.jsx: the validation
    schema as a function from the form's values to a submission or to the
    first error message of each failing field, and the submit handler that
    forwards a valid submission and resets the form. */
module CustomizationForm {
  import opened Wrappers
  import opened Cart

  /** The quantity field after yup's number cast: undefined (never set), not a number
      (which is also what an emptied input casts to), or a number. */
  datatype Quantity = QtyAbsent | QtyNotANumber | QtyValue(value: real)

  /** An uploaded file; only its MIME type is consulted. */
  datatype DesignFile = DesignFile(name: string, mimeType: string)

  /** The form values; "" is an unselected product, [] an empty or missing file list. */
  datatype FormValues = FormValues(productName: string, quantity: Quantity, designImage: seq<DesignFile>)

  /** The first error message of each field, if it has one. */
  datatype FormErrors = FormErrors(productName: Option<string>, quantity: Option<string>, designImage: Option<string>)

  /** What `internalSubmit` hands to `onSubmit`. */
  datatype Submission = Submission(productName: string, quantity: real, designImage: DesignFile)

  /** The values of the product drop-down. */
  const ProductOptions: seq<string> := ["", "Custom T-Shirt", "Personalized Mug", "Custom Tote Bag"]

  const ProductRequired := "Product is required"
  const QuantityRequired := "Quantity is required"
  const QuantityNotANumber := "quantity must be a `number` type"
  const MinQuantity := "Minimum quantity is 1"
  const MaxQuantity := "Maximum quantity is 100"
  const ImageRequired := "Design image is required"
  const ImageType := "Only JPG and PNG files allowed"
  const AllowedTypes: seq<string> := ["image/jpeg", "image/png"]

  function ProductNameError(productName: string): Option<string> {
    if productName == "" then Some(ProductRequired) else None
  }

  function QuantityError(quantity: Quantity): Option<string> {
    match quantity
    case QtyAbsent => Some(QuantityRequired)
    case QtyNotANumber => Some(QuantityNotANumber)
    case QtyValue(q) =>
      if q < 1.0 then Some(MinQuantity)
      else if q > 100.0 then Some(MaxQuantity)
      else None
  }

  function DesignImageError(files: seq<DesignFile>): Option<string> {
    if |files| == 0 then Some(ImageRequired)
    else if files[0].mimeType !in AllowedTypes then Some(ImageType)
    else None
  }

  /** The schema as a whole: a submission when every field passes, else the errors. */
  function Validate(values: FormValues): (r: Result<Submission, FormErrors>)
    ensures r.Ok? <==> values.productName != "" && values.quantity.QtyValue?
                       && 1.0 <= values.quantity.value <= 100.0
                       && |values.designImage| > 0
                       && (values.designImage[0].mimeType == "image/jpeg" || values.designImage[0].mimeType == "image/png")
    ensures r.Ok? ==> r.value == Submission(values.productName, values.quantity.value, values.designImage[0])
    ensures r.Err? ==> (r.error.productName == Some(ProductRequired) <==> values.productName == "")
    ensures r.Err? && values.quantity.QtyValue? ==>
              (r.error.quantity == Some(MinQuantity) <==> values.quantity.value < 1.0)
              && (r.error.quantity == Some(MaxQuantity) <==> values.quantity.value > 100.0)
    ensures r.Err? ==> (r.error.designImage == Some(ImageRequired) <==> |values.designImage| == 0)
  {
    var errors := FormErrors(ProductNameError(values.productName),
                             QuantityError(values.quantity),
                             DesignImageError(values.designImage));
    if errors == FormErrors(None, None, None) then
      Ok(Submission(values.productName, values.quantity.value, values.designImage[0]))
    else
      Err(errors)
  }

  /** The form values after a submit attempt: `reset()` empties them after a forwarded one. */
  function AfterSubmit(values: FormValues): (r: FormValues)
    ensures Validate(values).Ok? ==> r == FormValues("", QtyAbsent, [])
    ensures Validate(values).Err? ==> r == values
  {
    if Validate(values).Ok? then FormValues("", QtyAbsent, []) else values
  }

  /** Whatever was submitted, the form afterwards holds values the schema refuses, so a
      submission is never forwarded twice; after a forwarded one every field is reported
      as required. */
  lemma ResetFormRefused(values: FormValues)
    ensures Validate(AfterSubmit(values)).Err?
    ensures Validate(values).Ok? ==>
              Validate(AfterSubmit(values)).error == FormErrors(Some(ProductRequired), Some(QuantityRequired), Some(ImageRequired))
  {
  }

  /** What `handleAddToCart` receives from a forwarded submission (no customization text). */
  function ToAddRequest(submission: Submission): AddRequest {
    AddRequest(submission.productName, submission.quantity, None)
  }

  /** Every product the drop-down offers is in the catalog, so a valid form is never
      dropped as an unknown product. */
  lemma ValidFormFindsProduct(values: FormValues)
    requires values.productName in ProductOptions
    requires Validate(values).Ok?
    ensures FindProduct(values.productName).Some?
    ensures FindProduct(values.productName).value.name == values.productName
  {
    var name := values.productName;
    if name == "Custom T-Shirt" {
      assert Products[0].name == name;
    } else if name == "Personalized Mug" {
      assert Products[1].name == name;
    } else {
      assert name == "Custom Tote Bag";
      assert Products[2].name == name;
    }
  }
}

=== FILE: order_context.dfy ===
/** The order list of OrderContext.jsx: empty at first, replaced wholesale by
    the orders the backend returns when a token is present at mount, and
    appended to by `addOrder`. The fetch is asynchronous: it is modelled as the
    request made at mount and a later step that applies its outcome. */
module OrderContext {
  import opened Wrappers
  import opened Cart
  import opened Payment

  /** An order as App.jsx records it; `date` is the ISO day of the commit. */
  datatype Order = Order(
    orderId: int,
    status: string,
    total: real,
    date: string,
    details: PaymentDetails,
    items: seq<LineItem>)

  /** What `fetch` of the orders endpoint yields; a body that is not JSON is `Err` with the parser's message. */
  datatype OrdersReply =
    | OrdersFetchFailed(message: string)
    | OrdersAnswered(status: int, body: Result<seq<Order>, string>)

  const FetchOrdersFailed := "Failed to fetch orders"

  /** `fetchOrders`: the parsed list, or the message of the error it throws. */
  function FetchOrders(reply: OrdersReply): (r: Result<seq<Order>, string>)
    ensures reply.OrdersAnswered? && !IsOk(reply.status) ==> r == Err(FetchOrdersFailed)
    ensures r.Ok? <==> reply.OrdersAnswered? && IsOk(reply.status) && reply.body.Ok?
    ensures r.Ok? ==> r.value == reply.body.value
  {
    match reply
    case OrdersFetchFailed(message) => Err(message)
    case OrdersAnswered(status, body) =>
      if !IsOk(status) then Err(FetchOrdersFailed) else body
  }

  class OrderBook {
    var orders: seq<Order>
    /** Whether the fetch started at mount has yet to settle. */
    var fetchPending: bool

    constructor ()
      ensures orders == [] && !fetchPending
    {
      orders, fetchPending := [], false;
    }

    /** The mount effect: the orders are requested only when a token is stored;
        without one the effect returns and no fetch is ever in flight. */
    method Mount(token: string)
      modifies this
      ensures fetchPending <==> token != ""
      ensures orders == old(orders)
    {
      fetchPending := token != "";
    }

    /** The fetch started at mount settles: a successful one replaces the list, a failed
        one is logged and ignored. Only a fetch that was started can settle. */
    method SettleFetch(reply: OrdersReply)
      requires fetchPending
      modifies this
      ensures !fetchPending
      ensures FetchOrders(reply).Ok? ==> orders == FetchOrders(reply).value
      ensures FetchOrders(reply).Err? ==> orders == old(orders)
    {
      fetchPending := false;
      match FetchOrders(reply)
      case Ok(data) => orders := data;
      case Err(_) =>
    }

    /** `addOrder`: one order at the end, the earlier ones untouched. */
    method AddOrder(order: Order)
      modifies this
      ensures orders == old(orders) + [order]
      ensures fetchPending == old(fetchPending)
      ensures |orders| == |old(orders)| + 1 && orders[..|old(orders)|] == old(orders)
    {
      orders := orders + [order];
    }
  }
}

=== FILE: pay_view.dfy ===
/** The payment endpoint `pay_view` of the backend: it re-applies the coupon
    rule to the submitted amount, converts pesos to centavos, and either asks
    Stripe for a payment intent or answers 400. Stripe's answer is a parameter;
    `float` arithmetic is idealised as exact. */
module PayView {
  import opened Wrappers
  import opened Text

  /** `request.data.get("amount", 0)` as `float(...)` sees it: absent, a number
      (or numeric text), or a value whose conversion raises with the given message. */
  datatype AmountField = Missing | Number(value: real) | Unconvertible(error: string)

  /** The posted JSON; `couponCode` is `str(... or "")`, so "" when absent or falsy. */
  datatype PayRequest = PayRequest(amount: AmountField, couponCode: string)

  /** What `stripe.PaymentIntent.create` does: return a client secret or raise. */
  datatype StripeResult = Created(clientSecret: string) | Raised(error: string)

  datatype Body = SecretBody(clientSecret: string) | ErrorBody(error: string)

  datatype Response = Response(status: int, body: Body)

  /** The response and the amount in centavos handed to Stripe, if Stripe was called. */
  datatype Outcome = Outcome(response: Response, charged: Option<int>)

  const HTTP_200_OK := 200
  const HTTP_400_BAD_REQUEST := 400
  const InvalidAmount := "Invalid payment amount."
  const Save10 := "SAVE10"

  /** Python's `int(x)` on a float: truncation toward zero. */
  function Truncate(x: real): (n: int)
    ensures 0.0 <= x ==> n as real <= x < n as real + 1.0
    ensures x < 0.0 ==> n as real - 1.0 < x <= n as real
  {
    if x >= 0.0 then x.Floor else -((-x).Floor)
  }

  /** `float(request.data.get("amount", 0))` */
  function AmountPhp(field: AmountField): (r: Result<real, string>)
    ensures field.Missing? ==> r == Ok(0.0)
    ensures field.Number? ==> r == Ok(field.value)
    ensures field.Unconvertible? ==> r == Err(field.error)
  {
    match field
    case Missing => Ok(0.0)
    case Number(v) => Ok(v)
    case Unconvertible(e) => Err(e)
  }

  /** The amount after the server's coupon rule: 10% off for SAVE10 in any letter case. */
  function DiscountedAmount(amount: real, couponCode: string): (r: real)
    ensures SpellsSave10(couponCode) ==> r == amount * 9.0 / 10.0
    ensures !SpellsSave10(couponCode) ==> r == amount
  {
    Save10Spellings(couponCode);
    if ToUpper(couponCode) == Save10 then amount * 0.9 else amount
  }

  /** `int(amount_php * 100)` */
  function AmountCents(amount: real, couponCode: string): int {
    Truncate(DiscountedAmount(amount, couponCode) * 100.0)
  }

  /** `pay_view` */
  function Pay(request: PayRequest, stripe: StripeResult): (o: Outcome)
    ensures o.response.status == HTTP_200_OK || o.response.status == HTTP_400_BAD_REQUEST
    ensures o.charged.Some? <==> AmountPhp(request.amount).Ok?
                                 && AmountCents(AmountPhp(request.amount).value, request.couponCode) > 0
    ensures o.charged.Some? ==>
              o.charged.value == AmountCents(AmountPhp(request.amount).value, request.couponCode) > 0
    ensures o.response.status == HTTP_200_OK <==> o.charged.Some? && stripe.Created?
    ensures o.response.status == HTTP_200_OK ==> o.response.body == SecretBody(stripe.clientSecret)
    ensures request.amount.Unconvertible? ==>
              o.response == Response(HTTP_400_BAD_REQUEST, ErrorBody(request.amount.error))
    ensures AmountPhp(request.amount).Ok? && o.charged.None? ==>
              o.response == Response(HTTP_400_BAD_REQUEST, ErrorBody(InvalidAmount))
    ensures o.charged.Some? && stripe.Raised? ==>
              o.response == Response(HTTP_400_BAD_REQUEST, ErrorBody(stripe.error))
  {
    match AmountPhp(request.amount)
    case Err(e) => Outcome(Response(HTTP_400_BAD_REQUEST, ErrorBody(e)), None)
    case Ok(amount) =>
      var cents := AmountCents(amount, request.couponCode);
      if cents <= 0 then
        Outcome(Response(HTTP_400_BAD_REQUEST, ErrorBody(InvalidAmount)), None)
      else
        match stripe
        case Raised(e) => Outcome(Response(HTTP_400_BAD_REQUEST, ErrorBody(e)), Some(cents))
        case Created(secret) => Outcome(Response(HTTP_200_OK, SecretBody(secret)), Some(cents))
  }

  /** Stripe is called exactly when the discounted amount is at least one centavo. */
  lemma ChargedIffOneCentavo(amount: real, couponCode: string)
    ensures AmountCents(amount, couponCode) > 0 <==> DiscountedAmount(amount, couponCode) >= 1.0 / 100.0
  {
  }

  /** The centavos charged are the discounted pesos × 100, rounded down, for a non-negative amount. */
  lemma CentsBound(amount: real, couponCode: string)
    requires amount >= 0.0
    ensures var cents := AmountCents(amount, couponCode) as real;
            var exact := DiscountedAmount(amount, couponCode) * 100.0;
            cents <= exact < cents + 1.0
  {
  }

  /** A request without an amount is refused without calling Stripe. */
  lemma MissingAmountRefused(couponCode: string, stripe: StripeResult)
    ensures Pay(PayRequest(Missing, couponCode), stripe) ==
            Outcome(Response(HTTP_400_BAD_REQUEST, ErrorBody(InvalidAmount)), None)
  {
  }

  /** The server compares coupons after upper-casing: two codes that upper-case alike
      are charged alike, and every code other than a spelling of SAVE10 charges in full. */
  lemma {:induction false} CouponCaseInsensitive(amount: real, code1: string, code2: string)
    ensures ToUpper(code1) == ToUpper(code2) ==> AmountCents(amount, code1) == AmountCents(amount, code2)
    ensures !SpellsSave10(code1) ==> AmountCents(amount, code1) == Truncate(amount * 100.0)
  {
    Save10Spellings(code1);
    Save10Spellings(code2);
  }
}

=== FILE: payment.dfy ===
/** The payment session controller of Payment.jsx (`CheckoutForm`): the amount
    it charges, the payment-intent request made by its effect, and the card
    confirmation made by its submit handler. Both handlers are asynchronous;
    each is modelled as two steps split at its `await`, so that other handlers
    may run in between, as they can in the browser. The backend reply, the
    `localStorage` token and Stripe's confirmation are parameters. */
module Payment {
  import opened Wrappers
  import opened Cart

  /** What `onPaymentSuccess` receives. */
  datatype PaymentDetails = PaymentDetails(paymentIntentId: string, amount: real, couponCode: string)

  /** `totalAmount`: the `finalAmount` prop when it is a number, else the cart's Σ quantity × price. */
  function TotalAmount(finalAmount: Option<real>, items: seq<LineItem>): (r: real)
    ensures finalAmount.Some? ==> r == finalAmount.value
    ensures finalAmount.None? ==> r == Subtotal(items)
  {
    match finalAmount
    case Some(amount) => amount
    case None => Subtotal(items)
  }

  /** The effect's guard `cartItems.length > 0 && totalAmount > 0`. */
  predicate ShouldRequestIntent(items: seq<LineItem>, total: real) {
    |items| > 0 && total > 0.0
  }

  /** The JSON body `{ amount, coupon_code: couponCode || "" }` posted to the pay endpoint. */
  datatype IntentRequest = IntentRequest(amount: real, couponCode: string)

  /** A reply body as `response.json()` sees it; "" stands for an absent field. */
  datatype ReplyBody = Json(error: string, clientSecret: string) | NotJson(parseError: string)

  /** What `fetch` yields: a rejection with its message, or an HTTP status and body. */
  datatype IntentReply = FetchFailed(message: string) | Answered(status: int, body: ReplyBody)

  /** `response.ok` */
  predicate IsOk(status: int) {
    200 <= status <= 299
  }

  const IntentFailed := "Payment intent failed"

  /** `createPaymentIntent`: the client secret it returns, or the message of the error it throws. */
  function CreatePaymentIntent(reply: IntentReply): (r: Result<string, string>)
    ensures reply.FetchFailed? ==> r == Err(reply.message)
    ensures reply.Answered? && !IsOk(reply.status) ==> r.Err? && r.error != ""
    ensures reply.Answered? && !IsOk(reply.status) && !(reply.body.Json? && reply.body.error != "") ==>
              r == Err(IntentFailed)
    ensures reply.Answered? && !IsOk(reply.status) && reply.body.Json? && reply.body.error != "" ==>
              r == Err(reply.body.error)
    ensures reply.Answered? && IsOk(reply.status) ==>
              r == if reply.body.Json? then Ok(reply.body.clientSecret) else Err(reply.body.parseError)
  {
    match reply
    case FetchFailed(message) => Err(message)
    case Answered(status, body) =>
      if !IsOk(status) then
        Err(if body.Json? && body.error != "" then body.error else IntentFailed)
      else
        match body
        case Json(_, secret) => Ok(secret)
        case NotJson(parseError) => Err(parseError)
  }

  /** JavaScript's `message || fallback` on strings. */
  function OrDefault(message: string, fallback: string): (r: string)
    ensures fallback != "" ==> r != ""
    ensures message != "" ==> r == message
    ensures message == "" ==> r == fallback
  {
    if message == "" then fallback else message
  }

  const NotLoggedIn := "You must be logged in to pay."
  const StartFailed := "Failed to start payment."
  const PaymentFailed := "Payment failed."
  const UnexpectedStatus := "Unexpected payment status."

  /** The payment intent `confirmCardPayment` reports. */
  datatype PaymentIntent = PaymentIntent(id: string, status: string)

  /** `{ error, paymentIntent }` as returned by `confirmCardPayment`; the error is its message. */
  datatype ConfirmResult = ConfirmResult(error: Option<string>, paymentIntent: Option<PaymentIntent>)

  predicate ConfirmSucceeded(result: ConfirmResult) {
    result.error.None? && result.paymentIntent.Some? && result.paymentIntent.value.status == "succeeded"
  }

  datatype Status = Idle | Processing | Succeeded | Error

  class CheckoutForm {
    var status: Status
    var clientSecret: string
    var errorMessage: string
    /** Intent requests sent and not yet settled. */
    var pendingIntents: nat
    /** Confirmations started and not yet answered by Stripe. */
    var confirming: nat

    /** An error is never shown without a message. */
    ghost predicate Valid()
      reads this
    {
      status == Error ==> errorMessage != ""
    }

    constructor ()
      ensures Valid()
      ensures status == Idle && clientSecret == "" && errorMessage == ""
      ensures pendingIntents == 0 && confirming == 0
    {
      status, clientSecret, errorMessage := Idle, "", "";
      pendingIntents, confirming := 0, 0;
    }

    /** The Pay button is enabled: `!(!stripe || !clientSecret || status === "processing")`. */
    predicate SubmitEnabled(stripeLoaded: bool)
      reads this
    {
      stripeLoaded && clientSecret != "" && status != Processing
    }

    /** The effect on `[cartItems, totalAmount, couponCode]`, up to the awaited request:
        returns the request it sends, if any. */
    method StartIntent(items: seq<LineItem>, finalAmount: Option<real>, couponCode: string, token: string)
      returns (request: Option<IntentRequest>)
      requires Valid()
      modifies this
      ensures Valid()
      ensures request.Some? <==> ShouldRequestIntent(items, TotalAmount(finalAmount, items)) && token != ""
      ensures request.Some? ==> request.value == IntentRequest(TotalAmount(finalAmount, items), couponCode)
      ensures request.Some? ==> status == Processing && errorMessage == ""
      ensures !ShouldRequestIntent(items, TotalAmount(finalAmount, items)) ==> unchanged(this)
      ensures ShouldRequestIntent(items, TotalAmount(finalAmount, items)) && token == "" ==>
                status == Error && errorMessage == NotLoggedIn
      ensures clientSecret == old(clientSecret)
      ensures pendingIntents == old(pendingIntents) + (if request.Some? then 1 else 0)
      ensures confirming == old(confirming)
    {
      request := None;
      var total := TotalAmount(finalAmount, items);
      if |items| > 0 && total > 0.0 {
        status := Processing;
        errorMessage := "";
        if token == "" {
          status := Error;
          errorMessage := NotLoggedIn;
          return;
        }
        request := Some(IntentRequest(total, couponCode));
        pendingIntents := pendingIntents + 1;
      }
    }

    /** The rest of the effect, once a request it sent settles. */
    method SettleIntent(reply: IntentReply)
      requires Valid() && pendingIntents > 0
      modifies this
      ensures Valid()
      ensures CreatePaymentIntent(reply).Ok? ==>
                clientSecret == CreatePaymentIntent(reply).value && status == Idle
                && errorMessage == old(errorMessage)
      ensures CreatePaymentIntent(reply).Err? ==>
                status == Error && errorMessage == OrDefault(CreatePaymentIntent(reply).error, StartFailed)
                && clientSecret == old(clientSecret)
      ensures pendingIntents == old(pendingIntents) - 1 && confirming == old(confirming)
    {
      pendingIntents := pendingIntents - 1;
      match CreatePaymentIntent(reply)
      case Ok(secret) =>
        clientSecret := secret;
        status := Idle;
      case Err(message) =>
        status := Error;
        errorMessage := OrDefault(message, StartFailed);
    }

    /** `handleSubmit` up to the awaited confirmation; `started` is false when it returns early. */
    method BeginSubmit(stripeLoaded: bool, elementsLoaded: bool) returns (started: bool)
      requires Valid()
      modifies this
      ensures Valid()
      ensures started <==> stripeLoaded && elementsLoaded && old(clientSecret) != ""
      ensures !started ==> unchanged(this)
      ensures started ==> status == Processing && errorMessage == "" && clientSecret == old(clientSecret)
      ensures started ==> !SubmitEnabled(stripeLoaded)
      ensures confirming == old(confirming) + (if started then 1 else 0)
      ensures pendingIntents == old(pendingIntents)
    {
      if !stripeLoaded || !elementsLoaded || clientSecret == "" {
        return false;
      }
      status := Processing;
      errorMessage := "";
      confirming := confirming + 1;
      started := true;
    }

    /** The rest of a started `handleSubmit`, once Stripe answers: returns the argument
        passed to `onPaymentSuccess`, when it is called. */
    method FinishSubmit(result: ConfirmResult, totalAmount: real, couponCode: string, hasCallback: bool)
      returns (callback: Option<PaymentDetails>)
      requires Valid() && confirming > 0
      modifies this
      ensures Valid()
      ensures callback.Some? <==> hasCallback && ConfirmSucceeded(result)
      ensures callback.Some? ==>
                callback.value == PaymentDetails(result.paymentIntent.value.id, totalAmount, couponCode)
      ensures status == if ConfirmSucceeded(result) then Succeeded else Error
      ensures result.error.Some? ==> errorMessage == OrDefault(result.error.value, PaymentFailed)
      ensures result.error.None? && !ConfirmSucceeded(result) ==> errorMessage == UnexpectedStatus
      ensures ConfirmSucceeded(result) ==> errorMessage == old(errorMessage)
      ensures clientSecret == old(clientSecret)
      ensures confirming == old(confirming) - 1 && pendingIntents == old(pendingIntents)
    {
      confirming := confirming - 1;
      callback := None;
      if result.error.Some? {
        status := Error;
        errorMessage := OrDefault(result.error.value, PaymentFailed);
      } else if result.paymentIntent.Some? && result.paymentIntent.value.status == "succeeded" {
        status := Succeeded;
        if hasCallback {
          callback := Some(PaymentDetails(result.paymentIntent.value.id, totalAmount, couponCode));
        }
      } else {
        status := Error;
        errorMessage := UnexpectedStatus;
      }
    }
  }
}

=== FILE: text.dfy ===
/** String helpers shared by the storefront and the payment endpoint:
    ECMAScript's `String.prototype.trim` and upper-casing as done by
    `toUpperCase` in the browser and `str.upper` on the server. */
module Text {

  /** The characters `trim` strips: ECMAScript's WhiteSpace and LineTerminator. */
  predicate IsWhitespace(c: char) {
    c == '\t' || c == '\n' || c == '\U{000B}' || c == '\U{000C}' || c == '\r' || c == ' '
    || c == '\U{00A0}' || c == '\U{1680}' || ('\U{2000}' <= c <= '\U{200A}')
    || c == '\U{2028}' || c == '\U{2029}' || c == '\U{202F}' || c == '\U{205F}'
    || c == '\U{3000}' || c == '\U{FEFF}'
  }

  predicate AllWhitespace(s: string) {
    forall i :: 0 <= i < |s| ==> IsWhitespace(s[i])
  }

  function TrimStart(s: string): string {
    if |s| > 0 && IsWhitespace(s[0]) then TrimStart(s[1..]) else s
  }

  function TrimEnd(s: string): string {
    if |s| > 0 && IsWhitespace(s[|s| - 1]) then TrimEnd(s[..|s| - 1]) else s
  }

  /** `s.trim()` */
  function Trim(s: string): string {
    TrimEnd(TrimStart(s))
  }

  /** Upper-casing of one character; only the ASCII letters change. */
  function UpperChar(c: char): char {
    if 'a' <= c <= 'z' then (c as int - 32) as char else c
  }

  /** `s.toUpperCase()` in the browser, `s.upper()` on the server. */
  function ToUpper(s: string): string {
    seq(|s|, i requires 0 <= i < |s| => UpperChar(s[i]))
  }

  lemma {:induction false} TrimStartBlank(s: string)
    ensures TrimStart(s) == "" <==> AllWhitespace(s)
    ensures TrimStart(s) != "" ==> !IsWhitespace(TrimStart(s)[0])
    decreases |s|
  {
    if |s| > 0 && IsWhitespace(s[0]) {
      TrimStartBlank(s[1..]);
      if AllWhitespace(s[1..]) {
        forall i | 0 <= i < |s| ensures IsWhitespace(s[i]) {
          if i > 0 { assert s[i] == s[1..][i - 1]; }
        }
      }
    } else if |s| > 0 {
      assert !AllWhitespace(s) by { assert !IsWhitespace(s[0]); }
    }
  }

  lemma {:induction false} TrimEndBlank(s: string)
    ensures TrimEnd(s) == "" <==> AllWhitespace(s)
    ensures TrimEnd(s) != "" ==> !IsWhitespace(TrimEnd(s)[|TrimEnd(s)| - 1])
    decreases |s|
  {
    if |s| > 0 && IsWhitespace(s[|s| - 1]) {
      var front := s[..|s| - 1];
      TrimEndBlank(front);
      if AllWhitespace(front) {
        forall i | 0 <= i < |s| ensures IsWhitespace(s[i]) {
          if i < |s| - 1 { assert s[i] == front[i]; }
        }
      }
    } else if |s| > 0 {
      assert !AllWhitespace(s) by { assert !IsWhitespace(s[|s| - 1]); }
    }
  }

  /** A code trims to nothing exactly when every character of it is whitespace. */
  lemma TrimBlank(s: string)
    ensures Trim(s) == "" <==> AllWhitespace(s)
  {
    TrimStartBlank(s);
    var t := TrimStart(s);
    TrimEndBlank(t);
    if t != "" {
      assert !AllWhitespace(t) by { assert !IsWhitespace(t[0]); }
    }
  }

  /** The result of `trim` neither starts nor ends with whitespace. */
  lemma TrimmedEnds(s: string)
    ensures Trim(s) != "" ==> !IsWhitespace(Trim(s)[0]) && !IsWhitespace(Trim(s)[|Trim(s)| - 1])
  {
    var t := TrimStart(s);
    TrimStartBlank(s);
    TrimEndBlank(t);
    if Trim(s) != "" {
      TrimEndPrefix(t);
      assert Trim(s)[0] == t[0];
    }
  }

  lemma {:induction false} TrimEndPrefix(s: string)
    ensures |TrimEnd(s)| <= |s| && TrimEnd(s) == s[..|TrimEnd(s)|]
    decreases |s|
  {
    if |s| > 0 && IsWhitespace(s[|s| - 1]) {
      TrimEndPrefix(s[..|s| - 1]);
    }
  }

  lemma {:induction false} TrimStartOfPadded(w: string, s: string)
    requires AllWhitespace(w)
    ensures TrimStart(w + s) == TrimStart(s)
    decreases |w|
  {
    if |w| > 0 {
      assert (w + s)[1..] == w[1..] + s;
      TrimStartOfPadded(w[1..], s);
    } else {
      assert w + s == s;
    }
  }

  lemma {:induction false} TrimEndOfPadded(s: string, w: string)
    requires AllWhitespace(w)
    ensures TrimEnd(s + w) == TrimEnd(s)
    decreases |w|
  {
    if |w| > 0 {
      var w' := w[..|w| - 1];
      assert (s + w)[..|s + w| - 1] == s + w';
      TrimEndOfPadded(s, w');
    } else {
      assert s + w == s;
    }
  }

  lemma {:induction false} TrimStartAppend(s: string, t: string)
    requires !AllWhitespace(s)
    ensures TrimStart(s + t) == TrimStart(s) + t
    decreases |s|
  {
    assert |s| > 0;
    if IsWhitespace(s[0]) {
      assert !AllWhitespace(s[1..]) by {
        var i :| 0 <= i < |s| && !IsWhitespace(s[i]);
        assert s[1..][i - 1] == s[i];
      }
      assert (s + t)[1..] == s[1..] + t;
      TrimStartAppend(s[1..], t);
    }
  }

  /** Whitespace around a code does not change what it trims to. */
  lemma TrimIgnoresPadding(w1: string, s: string, w2: string)
    requires AllWhitespace(w1) && AllWhitespace(w2)
    ensures Trim(w1 + s + w2) == Trim(s)
  {
    assert w1 + s + w2 == w1 + (s + w2);
    TrimStartOfPadded(w1, s + w2);
    if AllWhitespace(s) {
      assert AllWhitespace(s + w2) by {
        forall i | 0 <= i < |s + w2| ensures IsWhitespace((s + w2)[i]) {
          if i < |s| { assert (s + w2)[i] == s[i]; } else { assert (s + w2)[i] == w2[i - |s|]; }
        }
      }
      TrimStartBlank(s + w2);
      TrimStartBlank(s);
    } else {
      TrimStartAppend(s, w2);
      TrimEndOfPadded(TrimStart(s), w2);
    }
  }

  lemma {:induction false} TrimStartSplit(s: string) returns (w: string)
    ensures AllWhitespace(w) && s == w + TrimStart(s)
    decreases |s|
  {
    if |s| > 0 && IsWhitespace(s[0]) {
      var w' := TrimStartSplit(s[1..]);
      w := [s[0]] + w';
      assert s == [s[0]] + s[1..];
    } else {
      w := "";
    }
  }

  lemma {:induction false} TrimEndSplit(s: string) returns (w: string)
    ensures AllWhitespace(w) && s == TrimEnd(s) + w
    decreases |s|
  {
    if |s| > 0 && IsWhitespace(s[|s| - 1]) {
      var w' := TrimEndSplit(s[..|s| - 1]);
      w := w' + [s[|s| - 1]];
      assert s == s[..|s| - 1] + [s[|s| - 1]];
    } else {
      w := "";
    }
  }

  /** `trim` removes exactly the surrounding whitespace: the code is the trimmed
      code with some whitespace before and some after it. */
  lemma TrimCore(s: string) returns (w1: string, w2: string)
    ensures AllWhitespace(w1) && AllWhitespace(w2)
    ensures s == w1 + Trim(s) + w2
  {
    w1 := TrimStartSplit(s);
    w2 := TrimEndSplit(TrimStart(s));
  }

  /** Upper-casing twice is upper-casing once. */
  lemma ToUpperIdempotent(s: string)
    ensures ToUpper(ToUpper(s)) == ToUpper(s)
  {
  }

  /** The spellings of the coupon code SAVE10 in any letter case. */
  predicate SpellsSave10(s: string) {
    && |s| == 6
    && (s[0] == 's' || s[0] == 'S') && (s[1] == 'a' || s[1] == 'A')
    && (s[2] == 'v' || s[2] == 'V') && (s[3] == 'e' || s[3] == 'E')
    && s[4] == '1' && s[5] == '0'
  }

  /** The characters that upper-case to a given one. */
  lemma UpperCharInverse(c: char, u: char)
    requires UpperChar(c) == u
    ensures 'A' <= u <= 'Z' ==> c == u || c as int == u as int + 32
    ensures !('A' <= u <= 'Z') ==> c == u
  {
  }

  /** A code upper-cases to SAVE10 exactly when it is SAVE10 in some letter case. */
  lemma Save10Spellings(s: string)
    ensures ToUpper(s) == "SAVE10" <==> SpellsSave10(s)
  {
    if ToUpper(s) == "SAVE10" {
      assert |s| == 6;
      forall i | 0 <= i < 6 ensures UpperChar(s[i]) == "SAVE10"[i] {
        assert ToUpper(s)[i] == UpperChar(s[i]);
      }
      UpperCharInverse(s[0], 'S');
      UpperCharInverse(s[1], 'A');
      UpperCharInverse(s[2], 'V');
      UpperCharInverse(s[3], 'E');
      UpperCharInverse(s[4], '1');
      UpperCharInverse(s[5], '0');
    }
  }
}

=== FILE: wrappers.dfy ===
/** Failure-compatible values used across the storefront model. */
module Wrappers {

  /** A value that may be absent (JavaScript `undefined`, a lookup that found nothing). */
  datatype Option<+T> = None | Some(value: T)

  /** The outcome of a step that can fail with an error of type `E` (a thrown exception). */
  datatype Result<+T, +E> = Ok(value: T) | Err(error: E)
}
